=== FILE: README.md ===
# Integer core of the STM32G431 motor-controller firmware

This project models the byte- and bit-level parts of the firmware's device
drivers and proves properties of them in Dafny. There are three parts:

- **The board-support UART layer** (`bsp_uart.c`). It keeps a bounded table of
  UART instances. Each entry binds a HAL UART handle to a device and that
  device's receive callback.
  - Registration rejects NULL arguments, a full table, a duplicate handle and a
    failed allocation.
  - A receive event calls the matching entry's callback with the buffer as the
    DMA left it, then zeroes that buffer.
  - An error event restarts reception on the matching entry.
  - `UART_Send` dispatches on the transfer mode.
  - `UART_IsReady` tests `gState`.
- **The AS5047P encoder driver** (`as5047.c`).
  - `Parity_bit_Calculate` is an exclusive-or fold over a 16-bit word.
  - The read command sets bit 14 and an even-parity bit 15.
  - A read sends two frames and masks the second reply to 14 bits.
  - Registration checks its arguments.
- **The VOFA+ telemetry device** (`vofa.c`).
  - The 7-byte receive frame `| 0x0A | index | 4 data bytes | 0x0B |` is
    validated, and its data bytes go into one of eight slots.
  - Registration mounts the device on a UART entry.
  - The sender puts the 4-byte header and then the payload on the wire, with
    return codes 0 to 3. The payload length `send_size * 4` is passed as a
    `uint16_t`, so from 16384 floats on it wraps modulo 65536. For a multiple
    of 16384 the length becomes 0; HAL_UART_Transmit rejects a zero length, so
    the payload call fails and the send returns 3. Any other size from 16384
    up sends a shortened payload and returns 0. The model keeps this behaviour
    of the source.
  - `Vofa.UartRxEvent` composes the two layers: the UART layer's receive
    dispatch, then the VOFA parser over the entry's buffer.

Files:

| file | contents |
|---|---|
| `hal.dfy` | module `Hal`: fixed-width integers, `Option` (the NULL pointer), `HAL_StatusTypeDef`, opaque handles |
| `bsp_uart.dfy` | module `BspUart`: the UART registry, dispatch and `UART_IsReady` |
| `as5047.dfy` | module `As5047`: parity, command words, the read sequence and registration |
| `vofa.dfy` | module `Vofa`: the frame parser, registration, the sender and the composed receive event |

The HAL is treated as an oracle. Each HAL transmit or SPI exchange is an input
parameter:
- `halReply`, `headReply` and `dataReply` are what the UART transmit routines
  return;
- an SPI reply is `Some(word)` or `None` for a failed exchange.

A `malloc` is a boolean success flag. Callbacks are not called from the model:
`BspUart.RxEvent` returns the call that is due, as an `Invocation` naming the
callback, the device and the buffer. The registry's capacity `DEVICE_UART_CNT`
and buffer length `UART_RXBUFF_LIMIT` are defined in a header that is not part
of this model. They are carried as fields `cap` and `bufLimit` of the registry
value. `cap` is assumed positive and below 256, because the fill counter `idx`
is a `uint8_t`.

## Model

| member | source | states |
|---|---|---|
| BspUart.Empty | Software/BSP/Src/bsp_uart.c:7-9 | the table at reset holds no entry, so no handle is registered, and it satisfies the registry invariant |
| BspUart.Lookup | Software/BSP/Src/bsp_uart.c:126-127 | the search finds the first entry whose handle is the one given, and finds nothing exactly when no entry has that handle |
| BspUart.Register | Software/BSP/Src/bsp_uart.c:17-51 | registration succeeds exactly when device and config are non-NULL, the table is not full, the handle is not yet registered and the allocation succeeds; the new entry goes at index `idx` with the given device, handle and callback and a zeroed buffer; earlier entries are unchanged; every failure leaves the table unchanged; the count never exceeds the capacity and handles stay pairwise distinct |
| BspUart.RxEvent | Software/BSP/Src/bsp_uart.c:124-146 | for the entry with the event's handle, the callback is due only when one is installed, and it sees the buffer before it is cleared; that buffer is then zeroed and every other entry is untouched; an unregistered handle changes nothing and calls nothing |
| BspUart.ErrorEvent | Software/BSP/Src/bsp_uart.c:154-163 | reception is restarted on an entry exactly when the handle is registered, and then on the entry with that handle |
| BspUart.Send | Software/BSP/Src/bsp_uart.c:85-104 | each of the three modes forwards the first `size` bytes to exactly one HAL transmit routine, the one for that mode (blocking with a 100 ms timeout), and returns its status; any other mode calls nothing and returns HAL_ERROR |
| BspUart.BitAndBusyTx | Software/BSP/Src/bsp_uart.c:112 | masking a word with HAL_UART_STATE_BUSY_TX (0x21) keeps exactly its bit 0 and its bit 5 |
| BspUart.IsReadyAsWritten | Software/BSP/Src/bsp_uart.c:111-116 | the test as written returns 0 exactly when `gState & HAL_UART_STATE_BUSY_TX` is non-zero, 1 otherwise |
| BspUart.IsReadyAsWrittenReportsIdleAsBusy | Software/BSP/Src/bsp_uart.c:112-113 | the test as written reports the READY, BUSY, TIMEOUT and ERROR states as busy |
| BspUart.IsReady | Software/BSP/Src/bsp_uart.c:111-116 | the corrected test returns 0 exactly when `gState & HAL_UART_STATE_BUSY_TX == HAL_UART_STATE_BUSY_TX`, 1 otherwise |
| BspUart.IsReadyBusyOnlyWhileTransmitting | Software/BSP/Src/bsp_uart.c:112-115 | over the six HAL transmit-side states, the corrected test reads busy exactly in BUSY_TX |
| As5047.ParityBitCalculate | Software/Devices/Src/as5047.c:62-69 | the loop terminates and returns 0 or 1, equal to the exclusive or of all 16 bits of the input |
| As5047.FoldParityIsParity | Software/Devices/Src/as5047.c:64-68 | folding by exclusive or while shifting right until the word is zero gives the exclusive or of all 16 bits |
| As5047.ParityIsPopCountModTwo | Software/Devices/Src/as5047.c:62-69 | the exclusive or of the 16 bits is 1 exactly when the word has an odd number of set bits |
| As5047.ParityOfFlipTop | Software/Devices/Src/as5047.c:123-124 | flipping bit 15 of a word flips its parity |
| As5047.CommandWord | Software/Devices/Src/as5047.c:122-124 | the command word always has the read bit 14 set and keeps the address's 14 data bits |
| As5047.CommandWordEvenParity | Software/Devices/Src/as5047.c:122-124 | for an address with bit 15 clear, the command word has even parity over all 16 bits |
| As5047.CommandWordWithoutParity | Software/Devices/Src/as5047.c:122-124 | for an address with bit 15 clear, clearing bit 15 of the command word gives back the address with bit 14 set |
| As5047.CommandWordParityBit | Software/Devices/Src/as5047.c:123-124 | for an address with bit 15 clear, bit 15 of the command word is set exactly when its other fifteen bits have odd parity |
| As5047.AngleCommandIsAllOnes | Software/Devices/Src/as5047.c:140 | the command word for ANGLECOM (0x3FFF) is 0xFFFF |
| As5047.ReadWriteByte | Software/Devices/Src/as5047.c:77-87 | one exchange framed by chip select low and high puts its word on the wire once and yields the reply, or 0 when the exchange fails |
| As5047.BuildCommand | Software/Devices/Src/as5047.c:122-124 | setting bit 14, then bit 15 when the parity routine returns 1, builds exactly the command word |
| As5047.DataBits | Software/Devices/Src/as5047.c:130 | masking yields a value below 0x4000 that agrees with the reply on its 14 data bits |
| As5047.Read | Software/Devices/Src/as5047.c:120-132 | a read sends the command word and then the constant 0x4000, each as one framed exchange and in that order; it returns the second reply's 14 data bits, so always below 0x4000, and 0 when the second exchange fails |
| As5047.ReadAngleRaw | Software/Devices/Src/as5047.c:139-140 | reading the angle is one framed exchange of 0xFFFF followed by one of 0x4000; it yields the second reply's 14 data bits, below 0x4000, and 0 when that exchange fails |
| As5047.Register | Software/Devices/Src/as5047.c:96-113 | registration fails exactly on a NULL SPI handle, a NULL chip-select port, pin 0 or a failed allocation; otherwise the instance has the given bus and pin, angle and measurement 0.0 and the given filter coefficient |
| Vofa.ZeroSlots | Software/Devices/Src/vofa.c:67-68 | the cleared slot array has eight slots of four zero bytes |
| Vofa.EncodeFrame | Software/Devices/Src/vofa.c:8 | the frame a host sends is 7 bytes: head 0x0A, the index, the four data bytes in order, tail 0x0B |
| Vofa.DecodeFrame | Software/Devices/Src/vofa.c:9-28 | a reception is accepted exactly when it is 7 bytes long, has head 0x0A and tail 0x0B and an index below 8; an accepted reception is the encoding of the frame it decodes to |
| Vofa.DecodeEncode | Software/Devices/Src/vofa.c:8-28 | every frame with an index below 8 and four data bytes is accepted and decodes back to itself |
| Vofa.AnalyzeRxData | Software/Devices/Src/vofa.c:9-28 | a reception of length other than 7, a wrong head or tail, or an index of 8 or more leaves all 8 slots unchanged; otherwise the slot the index names holds exactly bytes 2 to 5 of the frame in order and every other slot is unchanged; the result agrees with applying the decoded frame |
| Vofa.Register | Software/Devices/Src/vofa.c:45-71 | registration fails on a NULL handle, a failed allocation or a failed UART registration, and each failure leaves the UART table unchanged; on success the instance is mounted on a new UART entry whose callback is VOFA_RxCallback, appended after the existing entries with the capacity and buffer length unchanged, and all 8 slots are zero |
| Vofa.RxCallback | Software/Devices/Src/vofa.c:35-38 | the callback parses the entry's buffer into the instance's slots and changes nothing else about the instance |
| Vofa.UartRxEvent | Software/BSP/Src/bsp_uart.c:124-146 | a receive event on the VOFA instance's UART parses that entry's buffer as received and then zeroes it; an event on any other UART leaves the instance alone; the table changes only by zeroing the buffer of the entry with the event's handle, and not at all for an unregistered handle |
| Vofa.PayloadLength | Software/Devices/Src/vofa.c:88 | the payload length is `4 * send_size` when that fits in 16 bits, and less than that when it does not |
| Vofa.Send | Software/Devices/Src/vofa.c:80-92 | returns 1 and transmits nothing on a NULL instance, a NULL buffer or size 0; otherwise it first sends the header {0x00,0x00,0x80,0x7F} in blocking mode; it returns 2 without attempting the payload when the header fails; otherwise it sends the payload and returns 3 when that fails and 0 when it succeeds |
| Vofa.SendStream | Software/Devices/Src/vofa.c:85-91 | the bytes on the wire are nothing on code 1 and the header alone on code 2; on codes 0 and 3 they are the header followed by the first `PayloadLength(send_size)` bytes of the buffer, which are the first `4 * send_size` bytes whenever that fits in 16 bits |
| Vofa.PayloadLengthZero | Software/Devices/Src/vofa.c:88 | the `uint16_t` payload length is 0 exactly when `send_size` is a multiple of 16384 |
| Vofa.SendOfMultipleOfSixteenKFloatsSendsEmptyPayload | Software/Devices/Src/vofa.c:88-91 | a send of a non-zero multiple of 16384 floats whose header succeeds makes a payload call of zero bytes, so only the header reaches the wire; when the HAL answers that call with HAL_ERROR, as HAL_UART_Transmit does for a zero length, the send returns 3 |
| Vofa.SendOfSixteenKAndOneFloatsSendsOneFloat | Software/Devices/Src/vofa.c:88-91 | a send of 16385 floats with both transmissions succeeding returns 0 but puts only the header and the first float (4 bytes) on the wire |

## Left out

- `foc.c` is not part of this model. The Clarke and Park transforms and the angle limiter are single-precision floating point and call foreign trigonometry routines.
- The floating-point parts of `as5047.c` are left out: `RadErr_Limit`, `Rad_Limit`, the `AS5047P_RAW_TO_RAD` scaling and the low-pass update in `AS5047P_ReadAngle`. The degree-mode branch is compiled out. `As5047.ReadAngleRaw` models only the integer read that comes before them.
- `UART_Service_Init` and the DMA restart calls are not modelled as operations. `BspUart.ErrorEvent` returns which entry is restarted, and the HAL calls themselves are hardware.
- The HAL's rejection of a zero `Size` with HAL_ERROR is not built into `BspUart.Send`: the status is the `halReply` oracle. `Vofa.SendOfMultipleOfSixteenKFloatsSendsEmptyPayload` states the outcome under that reply.
- The HAL itself is not modelled. `HAL_UART_Transmit*`, `HAL_SPI_TransmitReceive`, `HAL_GPIO_WritePin`, `malloc`, `free` and `memset` become oracle parameters, success flags or recorded calls and events.
- The IEEE-754 meaning of the four bytes in a VOFA slot is left out. Slots are raw 4-byte sequences.
- Concurrency between interrupt handlers and the main loop is left out. The model is sequential.
- BspUart.Register: the handle in `UartConfig` is never NULL. The source checks only the device and the config pointers, so a NULL `uart_handle` inside the config would be registered and later dereferenced when reception starts. The model does not represent that case.
- `DEVICE_UART_CNT` and `UART_RXBUFF_LIMIT` are parameters of the registry. Their header is not part of this model.
- BspUart.Register: `cap` is required to be below 256 because `idx` is a `uint8_t`. A larger capacity would let `idx` wrap, and that is not modelled.
- Vofa.AnalyzeRxData: the buffer is required to hold 7 bytes whenever the length check passes. The source reads indices 0 to 6 without checking the buffer length.
- Vofa.UartRxEvent: it tracks one VOFA instance in a table shared with other devices. It requires that no other entry has that instance as its device, which is what a fresh allocation gives.

## Findings

| source | as written | input that shows it | evidently intended | confidence | as-written member | corrected member |
|---|---|---|---|---|---|---|
| Software/BSP/Src/bsp_uart.c:112 | `gState & HAL_UART_STATE_BUSY_TX` is non-zero, so the UART is reported busy. BUSY_TX is 0x21 in the STM32 HAL, and READY (0x20) shares its bit 5. | `gState == HAL_UART_STATE_READY` (0x20): an idle UART is reported busy. BUSY, TIMEOUT and ERROR are reported busy too; only RESET reads ready. | Report busy only while a transmission runs, i.e. `(gState & HAL_UART_STATE_BUSY_TX) == HAL_UART_STATE_BUSY_TX` | not executed; the HAL state values come from the STM32 HAL UART driver, whose header is not part of this model | BspUart.IsReadyAsWritten, BspUart.IsReadyAsWrittenReportsIdleAsBusy | BspUart.IsReady, BspUart.IsReadyBusyOnlyWhileTransmitting |

=== FILE: as5047.dfy ===
/**
 The integer side of the AS5047P magnetic-encoder driver: the even-parity
 command word that reads a register over SPI, the two-frame read sequence
 with its 14-bit result mask, and the argument checks of registration.

 The SPI peripheral is an oracle: each exchange's reply is an input, `None`
 standing for a failed HAL_SPI_TransmitReceive.
 */
module As5047 {
  import opened Hal

  /* The register addresses of the AS5047P that the driver uses. */
  const NOP: bv16 := 0x0000
  const ANGLECOM: bv16 := 0x3FFF

  /** Bit 14 of a command frame: 1 means read. */
  const ReadBit: bv16 := 0x4000
  /** Bit 15 of a command frame: the even-parity bit. */
  const ParityBit: bv16 := 0x8000
  /** The 14 data bits of a reply. */
  const DataMask: bv16 := 0x3FFF

  /** The exclusive or of all 16 bits of `x`: 1 when `x` has an odd number of set bits. */
  function ParityOf(x: bv16): bv16 {
    ((x >> 0) & 1) ^ ((x >> 1) & 1) ^ ((x >> 2) & 1) ^ ((x >> 3) & 1)
    ^ ((x >> 4) & 1) ^ ((x >> 5) & 1) ^ ((x >> 6) & 1) ^ ((x >> 7) & 1)
    ^ ((x >> 8) & 1) ^ ((x >> 9) & 1) ^ ((x >> 10) & 1) ^ ((x >> 11) & 1)
    ^ ((x >> 12) & 1) ^ ((x >> 13) & 1) ^ ((x >> 14) & 1) ^ ((x >> 15) & 1)
  }

  /** Shifting out the lowest bit removes exactly that bit from the parity. */
  lemma ParityShift(x: bv16)
    ensures ParityOf(x) == (x & 1) ^ ParityOf(x >> 1)
  {
  }

  /** The parity of a word is a single bit. */
  lemma ParityIsBit(x: bv16)
    ensures ParityOf(x) == 0 || ParityOf(x) == 1
  {
  }

  /**
   The value Parity_bit_Calculate's loop accumulates in the low bit of `sum`:
   the word folded by exclusive or while it is shifted right until it is zero.
   */
  function FoldParity(x: bv16): bv16
    decreases x
  {
    if x == 0 then 0 else (x & 1) ^ FoldParity(x >> 1)
  }

  /** Folding until the word is exhausted visits every one of its 16 bits. */
  lemma {:induction false} FoldParityIsParity(x: bv16)
    ensures FoldParity(x) == ParityOf(x)
    decreases x
  {
    if x != 0 {
      var y := x >> 1;
      ParityShift(x);
      FoldParityIsParity(y);
      assert FoldParity(x) == (x & 1) ^ FoldParity(y);
      if x & 1 == 1 {
        assert ParityOf(x) == 1 ^ ParityOf(y);
      } else {
        assert ParityOf(x) == ParityOf(y);
      }
    }
  }

  /**
   Parity_bit_Calculate: folds the word into `sum` by exclusive or while
   shifting it right until it is zero, and returns the lowest bit of `sum`,
   which is the parity of the input word.
   */
  method ParityBitCalculate(data: bv16) returns (p: bv16)
    ensures p == 0 || p == 1
    ensures p == ParityOf(data)
  {
    var sum: bv16 := 0;
    var d := data;
    while d != 0
      invariant (sum & 1) ^ FoldParity(d) == FoldParity(data)
      decreases d
    {
      sum := sum ^ d;
      d := d >> 1;
    }
    p := sum & 1;
    FoldParityIsParity(data);
  }

  /** The number of set bits of `x`, counted from the lowest bit up. */
  function PopCount(x: bv16): nat
    decreases x
  {
    if x == 0 then 0 else (if x & 1 == 1 then 1 else 0) + PopCount(x >> 1)
  }

  /**
   Exclusive-or parity is the number of set bits modulo two, so a word of
   even parity has an even number of ones.
   */
  lemma {:induction false} ParityIsPopCountModTwo(x: bv16)
    ensures ParityOf(x) == (if PopCount(x) % 2 == 1 then 1 else 0)
    decreases x
  {
    if x != 0 {
      var y := x >> 1;
      ParityShift(x);
      ParityIsPopCountModTwo(y);
      assert PopCount(x) == (if x & 1 == 1 then 1 else 0) + PopCount(y);
      if x & 1 == 1 {
        ParityIsBit(y);
        assert ParityOf(x) == 1 ^ ParityOf(y);
      } else {
        assert ParityOf(x) == ParityOf(y);
      }
    }
  }

  /** Flipping the top bit of a word flips its parity. */
  lemma ParityOfFlipTop(x: bv16)
    ensures ParityOf(x ^ 0x8000) == ParityOf(x) ^ 1
  {
  }

  /**
   The first frame of a register read: the address with the read bit set, and
   the parity bit set when the rest of the word holds an odd number of ones.
   */
  function CommandWord(addr: bv16): (cmd: bv16)
    ensures cmd & ReadBit == ReadBit
    ensures cmd & DataMask == addr & DataMask
  {
    var a := addr | ReadBit;
    if ParityOf(a) == 1 then a | ParityBit else a
  }

  /**
   For an address with bit 15 clear, the command word has even parity over
   all 16 bits.
   */
  lemma CommandWordEvenParity(addr: bv16)
    requires addr & ParityBit == 0
    ensures ParityOf(CommandWord(addr)) == 0
  {
    var a := addr | ReadBit;
    ReadBitKeepsTopClear(addr);
    ParityIsBit(a);
    if ParityOf(a) == 1 {
      ParityOfFlipTop(a);
      SetTopIsFlip(a);
    }
  }

  /** Setting the read bit of an address with bit 15 clear leaves bit 15 clear. */
  lemma ReadBitKeepsTopClear(addr: bv16)
    requires addr & ParityBit == 0
    ensures addr | ReadBit < 0x8000
  {
  }

  /** On a word with bit 15 clear, setting bit 15 is the same as flipping it. */
  lemma SetTopIsFlip(a: bv16)
    requires a < 0x8000
    ensures a | ParityBit == a ^ 0x8000
  {
  }

  /** For an address with bit 15 clear, clearing the command word's parity bit leaves the address with the read bit set. */
  lemma CommandWordWithoutParity(addr: bv16)
    requires addr & ParityBit == 0
    ensures CommandWord(addr) & !ParityBit == addr | ReadBit
  {
  }

  /**
   For an address with bit 15 clear, the parity bit of the command word is set
   exactly when its other fifteen bits have odd parity.
   */
  lemma CommandWordParityBit(addr: bv16)
    requires addr & ParityBit == 0
    ensures CommandWord(addr) & ParityBit != 0 <==> ParityOf(CommandWord(addr) & !ParityBit) == 1
  {
    var a := addr | ReadBit;
    CommandWordWithoutParity(addr);
    assert a & ParityBit == 0;
    assert CommandWord(addr) & ParityBit != 0 <==> ParityOf(a) == 1;
  }

  /** The angle register is read with the all-ones frame. */
  lemma AngleCommandIsAllOnes()
    ensures CommandWord(ANGLECOM) == 0xFFFF
  {
  }

  /** AS5047P_Instance; the low-pass filter state is kept as raw float bits. */
  datatype Instance = Instance(
    spi: SpiHandle,
    csPort: GpioPort,
    csPin: uint16,
    lowpassAlpha: Float32,
    lowpassMeasure: Float32,
    angle: Float32)

  /** What one call of AS5047P_ReadWriteByte does on the bus, in order. */
  datatype BusEvent =
    | ChipSelectLow(port: GpioPort, pin: uint16)
    | Exchange(spi: SpiHandle, tx: bv16)
    | ChipSelectHigh(port: GpioPort, pin: uint16)

  /** The bus events of one chip-select-framed exchange of `tx`. */
  function Transaction(inst: Instance, tx: bv16): seq<BusEvent> {
    [ChipSelectLow(inst.csPort, inst.csPin), Exchange(inst.spi, tx), ChipSelectHigh(inst.csPort, inst.csPin)]
  }

  /** The frames a bus trace puts on the wire, in order. */
  function Sent(trace: seq<BusEvent>): seq<bv16> {
    if |trace| == 0 then []
    else (if trace[0].Exchange? then [trace[0].tx] else []) + Sent(trace[1..])
  }

  /** The words sent by two traces in a row are those of the first, then those of the second. */
  lemma {:induction false} SentAppend(a: seq<BusEvent>, b: seq<BusEvent>)
    ensures Sent(a + b) == Sent(a) + Sent(b)
  {
    if |a| == 0 {
      assert a + b == b;
    } else {
      var head := if a[0].Exchange? then [a[0].tx] else [];
      assert (a + b)[0] == a[0];
      assert (a + b)[1..] == a[1..] + b;
      assert Sent(a + b) == head + Sent(a[1..] + b);
      SentAppend(a[1..], b);
      assert Sent(a) == head + Sent(a[1..]);
    }
  }

  /** A framed transaction puts exactly its one word on the bus. */
  lemma SentTransaction(inst: Instance, tx: bv16)
    ensures Sent(Transaction(inst, tx)) == [tx]
  {
    var t := Transaction(inst, tx);
    assert Sent(t[2..]) == [] by {
      assert t[2..][1..] == [];
    }
    assert Sent(t[1..]) == [tx] + Sent(t[2..]) by {
      assert t[1..][1..] == t[2..];
    }
  }

  /**
   AS5047P_ReadWriteByte: one exchange framed by chip select low and high; the
   word received, or 0 when the exchange failed.
   */
  function ReadWriteByte(inst: Instance, tx: bv16, reply: Option<bv16>): (r: (bv16, seq<BusEvent>))
    ensures reply.None? ==> r.0 == 0
    ensures reply.Some? ==> r.0 == reply.value
    ensures r.1 == Transaction(inst, tx) && Sent(r.1) == [tx]
  {
    SentTransaction(inst, tx);
    (if reply.Some? then reply.value else 0, Transaction(inst, tx))
  }

  /** The 14 data bits of a reply word. */
  function DataBits(w: bv16): (r: bv16)
    ensures r < 0x4000
    ensures r & DataMask == w & DataMask
  {
    w & DataMask
  }

  /**
   The first half of AS5047P_Read: set the read bit, then set the parity bit
   when Parity_bit_Calculate reports odd parity.
   */
  method BuildCommand(addr: bv16) returns (cmd: bv16)
    ensures cmd == CommandWord(addr)
  {
    cmd := addr | ReadBit;
    var p := ParityBitCalculate(cmd);
    if p == 1 {
      cmd := cmd | ParityBit;
    }
  }

  /**
   AS5047P_Read: sends the parity-corrected read command for `addr`, ignoring
   its reply, then the NOP read frame, and returns the second reply's 14 data
   bits (0 when that exchange failed).
   */
  method Read(inst: Instance, addr: bv16, firstReply: Option<bv16>, secondReply: Option<bv16>)
    returns (data: bv16, trace: seq<BusEvent>)
    ensures data < 0x4000
    ensures secondReply.None? ==> data == 0
    ensures secondReply.Some? ==> data == DataBits(secondReply.value)
    ensures trace == Transaction(inst, CommandWord(addr)) + Transaction(inst, NOP | ReadBit)
    ensures Sent(trace) == [CommandWord(addr), NOP | ReadBit]
  {
    var cmd := BuildCommand(addr);
    var first := ReadWriteByte(inst, cmd, firstReply);
    var second := ReadWriteByte(inst, NOP | ReadBit, secondReply);
    data := DataBits(second.0);
    trace := first.1 + second.1;
    SentAppend(first.1, second.1);
    assert [cmd] + [NOP | ReadBit] == [cmd, NOP | ReadBit];
  }

  /**
   The integer part of AS5047P_ReadAngle: a read of the compensated angle
   register, which puts 0xFFFF and then 0x4000 on the wire.
   */
  method ReadAngleRaw(inst: Instance, firstReply: Option<bv16>, secondReply: Option<bv16>)
    returns (raw: bv16, trace: seq<BusEvent>)
    ensures raw < 0x4000
    ensures secondReply.None? ==> raw == 0
    ensures secondReply.Some? ==> raw == DataBits(secondReply.value)
    ensures trace == Transaction(inst, 0xFFFF) + Transaction(inst, 0x4000)
    ensures Sent(trace) == [0xFFFF, 0x4000]
  {
    raw, trace := Read(inst, ANGLECOM, firstReply, secondReply);
    AngleCommandIsAllOnes();
  }

  /**
   AS5047P_Register: fails on a NULL SPI handle, a NULL chip-select port, pin
   number 0 or a failed allocation; otherwise an instance bound to the given
   bus and pin with angle and measurement 0.0 and the given filter coefficient.
   */
  function Register(spi: Option<SpiHandle>, csPort: Option<GpioPort>, csPin: uint16,
                    lowpassAlpha: Float32, allocOk: bool): (r: Option<Instance>)
    ensures r.Some? <==> spi.Some? && csPort.Some? && csPin != 0 && allocOk
    ensures r.Some? ==>
      && r.value.spi == spi.value && r.value.csPort == csPort.value && r.value.csPin == csPin
      && r.value.angle == FloatZero && r.value.lowpassMeasure == FloatZero
      && r.value.lowpassAlpha == lowpassAlpha
  {
    if spi.None? || csPort.None? || csPin == 0 then None
    else if !allocOk then None
    else Some(Instance(spi.value, csPort.value, csPin, lowpassAlpha, FloatZero, FloatZero))
  }
}

=== FILE: bsp_uart.dfy ===
/**
 The board-support UART layer: a bounded table of UART instances, each binding
 one HAL UART handle to the device mounted on it and that device's receive
 callback, plus the transmit dispatch and the HAL interrupt hooks that route
 receive and error events to the matching entry.

 The table's capacity (`DEVICE_UART_CNT`) and the receive buffer length
 (`UART_RXBUFF_LIMIT`) come from a header that is not part of this model, so
 they are carried in the registry value instead of being fixed here.
 */
module BspUart {
  import opened Hal

  /** The receive callbacks a device can install (`uart_device_callback`). */
  datatype Callback = VofaRxCallback | OtherCallback(id: nat)

  /** UART_Init_Config_s: the handle to bind and the callback to install (NULL allowed). */
  datatype UartConfig = UartConfig(handle: UartHandle, callback: Option<Callback>)

  /** UART_Instance: one registered UART and the receive buffer its DMA fills. */
  datatype UartInstance = UartInstance(
    device: DeviceRef,
    handle: UartHandle,
    callback: Option<Callback>,
    recvBuff: seq<uint8>)

  /**
   The static table `usart_instance` together with its fill counter `idx`, which
   is `|entries|`: `cap` is `DEVICE_UART_CNT`, `bufLimit` is `UART_RXBUFF_LIMIT`.
   Slots at and beyond `idx` are never read, so they are not represented.
   */
  datatype Registry = Registry(cap: nat, bufLimit: nat, entries: seq<UartInstance>)

  /** A callback that is due: `module_callback(device_instance, Size)` with the buffer it reads. */
  datatype Invocation = Invocation(callback: Callback, device: DeviceRef, buffer: seq<uint8>, size: uint16)

  predicate HandlesDistinct(entries: seq<UartInstance>) {
    forall i, j :: 0 <= i < j < |entries| ==> entries[i].handle != entries[j].handle
  }

  /**
   The registry invariant: a positive capacity that the `uint8_t` counter can
   reach, never more entries than capacity, pairwise distinct handles, and
   every receive buffer `UART_RXBUFF_LIMIT` bytes long.
   */
  predicate Valid(r: Registry) {
    && 0 < r.cap < 0x100
    && |r.entries| <= r.cap
    && HandlesDistinct(r.entries)
    && forall i :: 0 <= i < |r.entries| ==> |r.entries[i].recvBuff| == r.bufLimit
  }

  predicate Registered(r: Registry, h: UartHandle) {
    exists i :: 0 <= i < |r.entries| && r.entries[i].handle == h
  }

  /** The table at reset: `idx == 0` and every slot NULL. */
  function Empty(cap: nat, bufLimit: nat): (r: Registry)
    requires 0 < cap < 0x100
    ensures Valid(r)
    ensures |r.entries| == 0
    ensures forall h :: !Registered(r, h)
  {
    Registry(cap, bufLimit, [])
  }

  /**
   The linear search every hook of this layer performs: the first entry whose
   handle is `h`, or nothing when `h` is not in the table.
   */
  method Lookup(entries: seq<UartInstance>, h: UartHandle) returns (k: Option<nat>)
    ensures k.Some? ==> k.value < |entries| && entries[k.value].handle == h
    ensures k.Some? ==> forall j :: 0 <= j < k.value ==> entries[j].handle != h
    ensures k.None? <==> forall j :: 0 <= j < |entries| ==> entries[j].handle != h
  {
    var i := 0;
    while i < |entries|
      invariant 0 <= i <= |entries|
      invariant forall j :: 0 <= j < i ==> entries[j].handle != h
    {
      if entries[i].handle == h {
        return Some(i);
      }
      i := i + 1;
    }
    return None;
  }

  /**
   UART_Register. It fails (NULL, table untouched) on a NULL device or config,
   a full table, a handle that is already registered, or a failed allocation;
   otherwise it appends a new entry with a zeroed receive buffer at index `idx`
   and `idx` grows by one. Starting the DMA reception is left to the HAL.
   */
  method Register(reg: Registry, device: Option<DeviceRef>, config: Option<UartConfig>, allocOk: bool)
    returns (reg': Registry, index: Option<nat>)
    requires Valid(reg)
    ensures Valid(reg')
    ensures index.Some? <==>
      && device.Some? && config.Some?
      && |reg.entries| < reg.cap
      && !Registered(reg, config.value.handle)
      && allocOk
    ensures index.None? ==> reg' == reg
    ensures index.Some? ==>
      && index.value == |reg.entries|
      && reg'.cap == reg.cap && reg'.bufLimit == reg.bufLimit
      && reg'.entries == reg.entries
           + [UartInstance(device.value, config.value.handle, config.value.callback, Zeros(reg.bufLimit))]
  {
    if device.None? || config.None? {
      return reg, None;
    }
    if |reg.entries| >= reg.cap {
      return reg, None;
    }
    var found := Lookup(reg.entries, config.value.handle);
    if found.Some? {
      return reg, None;
    }
    if !allocOk {
      return reg, None;
    }
    var entry := UartInstance(device.value, config.value.handle, config.value.callback, Zeros(reg.bufLimit));
    reg' := reg.(entries := reg.entries + [entry]);
    index := Some(|reg.entries|);
  }

  /**
   HAL_UARTEx_RxEventCallback. For the entry whose handle raised the event, the
   installed callback (if any) is due with the buffer as the DMA left it, and
   only afterwards is that entry's buffer zeroed; every other entry is kept.
   An event from an unregistered handle changes nothing and calls nothing.
   */
  method RxEvent(reg: Registry, huart: UartHandle, size: uint16)
    returns (reg': Registry, call: Option<Invocation>)
    requires Valid(reg)
    ensures Valid(reg')
    ensures !Registered(reg, huart) ==> reg' == reg && call.None?
    ensures forall i :: 0 <= i < |reg.entries| && reg.entries[i].handle == huart ==>
      && reg' == reg.(entries := reg.entries[i := reg.entries[i].(recvBuff := Zeros(reg.bufLimit))])
      && call == (match reg.entries[i].callback
                  case None => None
                  case Some(cb) => Some(Invocation(cb, reg.entries[i].device, reg.entries[i].recvBuff, size)))
  {
    var k := Lookup(reg.entries, huart);
    if k.None? {
      return reg, None;
    }
    var i := k.value;
    var e := reg.entries[i];
    call := match e.callback
      case None => None
      case Some(cb) => Some(Invocation(cb, e.device, e.recvBuff, size));
    reg' := reg.(entries := reg.entries[i := e.(recvBuff := Zeros(reg.bufLimit))]);
  }

  /**
   HAL_UART_ErrorCallback. Reception is restarted on the entry whose handle
   raised the error and on no other; nothing in the table changes (the receive
   buffer in particular is not cleared). The result names the restarted entry.
   */
  method ErrorEvent(reg: Registry, huart: UartHandle) returns (restarted: Option<nat>)
    requires Valid(reg)
    ensures restarted.None? <==> !Registered(reg, huart)
    ensures restarted.Some? ==> restarted.value < |reg.entries| && reg.entries[restarted.value].handle == huart
  {
    restarted := Lookup(reg.entries, huart);
  }

  /** UART_TRANSFER_MODE; `TransferInvalid` labels every value outside the three named modes. */
  datatype TransferMode = TransferBlocking | TransferIt | TransferDma | TransferInvalid

  /** The three HAL transmit routines; the blocking one carries its timeout in ms. */
  datatype TxRoutine = TransmitBlocking(timeout: nat) | TransmitIt | TransmitDma

  /** One call of a HAL transmit routine: which one, on which handle, with which bytes. */
  datatype TxCall = TxCall(routine: TxRoutine, handle: UartHandle, data: seq<uint8>)

  /** What UART_Send returned and which transmit routine, if any, it called. */
  datatype SendResult = SendResult(status: HalStatus, call: Option<TxCall>)

  /** The timeout UART_Send gives HAL_UART_Transmit in blocking mode. */
  const BlockingTimeout: nat := 100

  /** The transfer mode a transmit routine serves: the inverse of the dispatch in `Send`. */
  function ModeOf(routine: TxRoutine): TransferMode {
    match routine
    case TransmitBlocking(_) => TransferBlocking
    case TransmitIt => TransferIt
    case TransmitDma => TransferDma
  }

  /**
   UART_Send. Each of the three modes forwards the first `size` bytes of `buf`
   to exactly one HAL transmit routine, the one serving that mode, and returns
   what that routine returned (`halReply`); any other mode calls nothing and
   returns HAL_ERROR.
   */
  function Send(handle: UartHandle, buf: seq<uint8>, size: uint16, mode: TransferMode, halReply: HalStatus): (r: SendResult)
    requires size as int <= |buf|
    ensures r.call.None? <==> mode.TransferInvalid?
    ensures r.call.None? ==> r.status == HalError
    ensures r.call.Some? ==>
      && r.status == halReply
      && ModeOf(r.call.value.routine) == mode
      && r.call.value.handle == handle
      && r.call.value.data == buf[..size]
    ensures mode == TransferBlocking ==> r.call.value.routine == TransmitBlocking(BlockingTimeout)
  {
    match mode
    case TransferBlocking => SendResult(halReply, Some(TxCall(TransmitBlocking(BlockingTimeout), handle, buf[..size])))
    case TransferIt => SendResult(halReply, Some(TxCall(TransmitIt, handle, buf[..size])))
    case TransferDma => SendResult(halReply, Some(TxCall(TransmitDma, handle, buf[..size])))
    case TransferInvalid => SendResult(HalError, None)
  }

  /* UART state values of `gState`, as the STM32 HAL UART driver defines them. */
  const HAL_UART_STATE_RESET: uint32 := 0x00
  const HAL_UART_STATE_READY: uint32 := 0x20
  const HAL_UART_STATE_BUSY: uint32 := 0x24
  const HAL_UART_STATE_BUSY_TX: uint32 := 0x21
  const HAL_UART_STATE_TIMEOUT: uint32 := 0xA0
  const HAL_UART_STATE_ERROR: uint32 := 0xE0

  /**
   Masking with HAL_UART_STATE_BUSY_TX (0x21) keeps exactly bit 0 and bit 5:
   the shifts through the four clear bits between them are spelt out.
   */
  lemma {:induction false} BitAndBusyTx(x: nat)
    ensures BitAnd(x, 0x21) == (if x % 2 == 1 then 1 else 0) + (if (x / 0x20) % 2 == 1 then 0x20 else 0)
  {
    var x1 := x / 2;
    var x2 := x1 / 2;
    var x3 := x2 / 2;
    var x4 := x3 / 2;
    var x5 := x4 / 2;
    assert x5 == x / 0x20;
    assert BitAnd(x, 0x21) == 2 * BitAnd(x1, 0x10) + (if x % 2 == 1 then 1 else 0);
    assert BitAnd(x1, 0x10) == 2 * BitAnd(x2, 0x08);
    assert BitAnd(x2, 0x08) == 2 * BitAnd(x3, 0x04);
    assert BitAnd(x3, 0x04) == 2 * BitAnd(x4, 0x02);
    assert BitAnd(x4, 0x02) == 2 * BitAnd(x5, 0x01);
    assert BitAnd(x5, 0x01) == (if x5 % 2 == 1 then 1 else 0) by {
      if x5 != 0 {
        assert BitAnd(x5 / 2, 0) == 0;
      }
    }
  }

  /**
   UART_IsReady as written: 0 ("busy") exactly when `gState & HAL_UART_STATE_BUSY_TX`
   is non-zero, 1 otherwise. BUSY_TX (0x21) occupies bits 0 and 5, so the test
   is computed from those two bits of `gState`.
   */
  function IsReadyAsWritten(gState: uint32): (r: uint8)
    ensures r == 0 || r == 1
    ensures r == 0 <==> BitAnd(gState as nat, HAL_UART_STATE_BUSY_TX as nat) != 0
  {
    BitAndBusyTx(gState as nat);
    if gState % 2 == 1 || (gState / 0x20) % 2 == 1 then 0 else 1
  }

  /**
   HAL_UART_STATE_BUSY_TX shares its bit 5 with HAL_UART_STATE_READY, so the
   test as written reports an idle UART as busy, and so it does for every
   transmit-side state except RESET.
   */
  lemma IsReadyAsWrittenReportsIdleAsBusy()
    ensures IsReadyAsWritten(HAL_UART_STATE_READY) == 0
    ensures IsReadyAsWritten(HAL_UART_STATE_BUSY) == 0
    ensures IsReadyAsWritten(HAL_UART_STATE_TIMEOUT) == 0
    ensures IsReadyAsWritten(HAL_UART_STATE_ERROR) == 0
  {
  }

  /**
   UART_IsReady as intended: busy exactly when every bit of
   HAL_UART_STATE_BUSY_TX is present in `gState`
   (`(gState & HAL_UART_STATE_BUSY_TX) == HAL_UART_STATE_BUSY_TX`).
   */
  function IsReady(gState: uint32): (r: uint8)
    ensures r == 0 || r == 1
    ensures r == 0 <==> BitAnd(gState as nat, HAL_UART_STATE_BUSY_TX as nat) == HAL_UART_STATE_BUSY_TX as nat
  {
    BitAndBusyTx(gState as nat);
    if gState % 2 == 1 && (gState / 0x20) % 2 == 1 then 0 else 1
  }

  /** Over the transmit-side states the HAL puts in `gState`, the corrected test reads busy only in BUSY_TX. */
  lemma IsReadyBusyOnlyWhileTransmitting(s: uint32)
    requires s in {HAL_UART_STATE_RESET, HAL_UART_STATE_READY, HAL_UART_STATE_BUSY,
                   HAL_UART_STATE_BUSY_TX, HAL_UART_STATE_TIMEOUT, HAL_UART_STATE_ERROR}
    ensures IsReady(s) == 0 <==> s == HAL_UART_STATE_BUSY_TX
  {
  }
}

=== FILE: hal.dfy ===
/**
 The vocabulary the firmware's drivers share with the STM32 hardware-abstraction
 layer: fixed-width integers, nullable pointers, `HAL_StatusTypeDef`, and opaque
 handles for the peripherals and device instances the drivers pass around.
 */
module Hal {

  newtype uint8 = x: int | 0 <= x < 0x100
  newtype uint16 = x: int | 0 <= x < 0x1_0000
  newtype uint32 = x: int | 0 <= x < 0x1_0000_0000

  /** A nullable pointer or handle: `None` plays the part of C's NULL. */
  datatype Option<+T> = None | Some(value: T)

  /** HAL_StatusTypeDef: the result of every HAL transfer routine. */
  datatype HalStatus = HalOk | HalError | HalBusy | HalTimeout

  /** `UART_HandleTypeDef *`, compared only for identity. */
  datatype UartHandle = UartHandle(id: nat)

  /** `SPI_HandleTypeDef *`, compared only for identity. */
  datatype SpiHandle = SpiHandle(id: nat)

  /** `GPIO_TypeDef *`, compared only for identity. */
  datatype GpioPort = GpioPort(id: nat)

  /** The address of a device instance (the `void *device_instance` of a UART entry). */
  datatype DeviceRef = DeviceRef(id: nat)

  /** A single-precision float held as its raw bit pattern; no float arithmetic is modelled. */
  datatype Float32 = Float32(bits: uint32)

  /** The bit pattern of `0.0f`, which is also what `memset(.., 0, ..)` leaves behind. */
  const FloatZero: Float32 := Float32(0)

  /** A buffer of `n` bytes cleared by `memset(.., 0, n)`. */
  function Zeros(n: nat): (r: seq<uint8>)
    ensures |r| == n
    ensures forall i :: 0 <= i < n ==> r[i] == 0
  {
    seq(n, _ => 0)
  }

  /** C's `&` on unsigned integers, bit by bit from the lowest. */
  function BitAnd(x: nat, y: nat): nat
    decreases x
  {
    if x == 0 || y == 0 then 0
    else 2 * BitAnd(x / 2, y / 2) + (if x % 2 == 1 && y % 2 == 1 then 1 else 0)
  }
}

=== FILE: vofa.dfy ===
/**
 The VOFA+ telemetry device: a receive parser for the fixed 7-byte frame
 `| 0x0A | index | 4 data bytes | 0x0B |` that stores the data bytes in one of
 eight variable slots, registration on a UART of the board-support layer, and
 a sender that puts the frame header and then the payload on that UART.

 Slots hold the four raw bytes of a `float` in memory order; their IEEE-754
 meaning is not modelled.
 */
module Vofa {
  import opened Hal
  import BspUart

  const VOFA_RX_HEAD: uint8 := 0x0A
  const VOFA_RX_TAIL: uint8 := 0x0B
  /** The number of receive slots, `VOFA_RX_NUM`. */
  const VOFA_RX_NUM: nat := 8
  /** The only receive length the parser accepts. */
  const RxFrameSize: nat := 7
  /** The bytes of one slot: one `float`. */
  const SlotSize: nat := 4

  /** `vofa_tx_head`: the bytes sent before every payload. */
  const VofaTxHead: seq<uint8> := [0x00, 0x00, 0x80, 0x7F]

  /** `RxVar`: eight slots of four bytes each. */
  predicate ValidSlots(rx: seq<seq<uint8>>) {
    |rx| == VOFA_RX_NUM && forall k :: 0 <= k < |rx| ==> |rx[k]| == SlotSize
  }

  /** The slots at registration: every byte zero. */
  function ZeroSlots(): (rx: seq<seq<uint8>>)
    ensures ValidSlots(rx)
    ensures forall k, j :: 0 <= k < VOFA_RX_NUM && 0 <= j < SlotSize ==> rx[k][j] == 0
  {
    seq(VOFA_RX_NUM, _ => Zeros(SlotSize))
  }

  /** The content of an accepted receive frame: which slot, and the four bytes for it. */
  datatype Frame = Frame(index: uint8, data: seq<uint8>)

  predicate ValidFrame(f: Frame) {
    f.index as nat < VOFA_RX_NUM && |f.data| == SlotSize
  }

  /** The bytes a host sends to set slot `f.index` to `f.data`. */
  function EncodeFrame(f: Frame): (b: seq<uint8>)
    requires ValidFrame(f)
    ensures |b| == RxFrameSize
    ensures b[0] == VOFA_RX_HEAD && b[6] == VOFA_RX_TAIL
    ensures b[1] == f.index && b[2..6] == f.data
  {
    [VOFA_RX_HEAD, f.index] + f.data + [VOFA_RX_TAIL]
  }

  /**
   The accept test of VOFA_AnalyzeRxData on the bytes of one reception:
   exactly seven of them, head and tail in place, an index naming a slot.
   */
  function DecodeFrame(b: seq<uint8>): (r: Option<Frame>)
    ensures r.Some? <==>
      |b| == RxFrameSize && b[0] == VOFA_RX_HEAD && b[6] == VOFA_RX_TAIL && (b[1] as nat) < VOFA_RX_NUM
    ensures r.Some? ==> ValidFrame(r.value) && EncodeFrame(r.value) == b
  {
    if |b| != RxFrameSize then None
    else if b[0] != VOFA_RX_HEAD || b[6] != VOFA_RX_TAIL then None
    else if b[1] as nat >= VOFA_RX_NUM then None
    else
      var f := Frame(b[1], b[2..6]);
      assert EncodeFrame(f) == b;
      Some(f)
  }

  /** Every frame a host can build is accepted and decodes back to itself. */
  lemma DecodeEncode(f: Frame)
    requires ValidFrame(f)
    ensures DecodeFrame(EncodeFrame(f)) == Some(f)
  {
    var b := EncodeFrame(f);
    assert b[2..6] == f.data;
  }

  /** The effect of a decoded reception on the slots: an accepted frame overwrites its slot. */
  function Apply(rx: seq<seq<uint8>>, r: Option<Frame>): seq<seq<uint8>>
    requires ValidSlots(rx)
    requires r.Some? ==> ValidFrame(r.value)
  {
    match r
    case None => rx
    case Some(f) => rx[f.index := f.data]
  }

  /**
   VOFA_AnalyzeRxData over the UART receive buffer `buf` after a reception of
   `size` bytes. A reception of any length other than 7, a wrong head or tail,
   or an index of 8 or more leaves every slot as it was; otherwise the four data
   bytes are copied, in order, into the slot the index names and no other slot
   changes. The receive buffer must hold the 7 bytes the parser reads whenever
   the length check passes.
   */
  method AnalyzeRxData(rx: seq<seq<uint8>>, buf: seq<uint8>, size: uint16) returns (rx': seq<seq<uint8>>)
    requires ValidSlots(rx)
    requires size as nat == RxFrameSize ==> |buf| >= RxFrameSize
    ensures ValidSlots(rx')
    ensures size as nat != RxFrameSize ==> rx' == rx
    ensures size as nat == RxFrameSize ==> rx' == Apply(rx, DecodeFrame(buf[..RxFrameSize]))
    ensures size as nat == RxFrameSize && DecodeFrame(buf[..RxFrameSize]).Some? ==>
      && rx'[buf[1]] == buf[2..6]
      && forall k :: 0 <= k < VOFA_RX_NUM && k != buf[1] as nat ==> rx'[k] == rx[k]
    ensures !(size as nat == RxFrameSize && DecodeFrame(buf[..RxFrameSize]).Some?) ==> rx' == rx
  {
    if size as nat != RxFrameSize {
      return rx;
    }
    if buf[0] != VOFA_RX_HEAD || buf[6] != VOFA_RX_TAIL {
      return rx;
    }
    var id := buf[1] as nat;
    if id >= VOFA_RX_NUM {
      return rx;
    }
    var slot := rx[id];
    var i := 0;
    while i < SlotSize
      invariant 0 <= i <= SlotSize
      invariant |slot| == SlotSize
      invariant forall j :: 0 <= j < i ==> slot[j] == buf[j + 2]
    {
      slot := slot[i := buf[i + 2]];
      i := i + 1;
    }
    assert slot == buf[2..6];
    rx' := rx[id := slot];
    var b := buf[..RxFrameSize];
    assert b[0] == buf[0] && b[1] == buf[1] && b[6] == buf[6] && b[2..6] == buf[2..6];
  }

  /**
   VOFA_Instance: the device's own address (what the UART entry hands back to
   the callback), the UART entry it is mounted on, as an index into the
   registry table, and its receive slots.
   */
  datatype VofaInstance = VofaInstance(self: DeviceRef, uart: nat, rxVar: seq<seq<uint8>>)

  /** No entry of the table has `d` as its device: `d` is a fresh allocation. */
  predicate Fresh(reg: BspUart.Registry, d: DeviceRef) {
    forall i :: 0 <= i < |reg.entries| ==> reg.entries[i].device != d
  }

  /**
   `v` is mounted on its UART entry: that entry, and no other, has `v` as its
   device, and it calls VOFA_RxCallback.
   */
  predicate Mounted(reg: BspUart.Registry, v: VofaInstance) {
    && v.uart < |reg.entries|
    && reg.entries[v.uart].device == v.self
    && reg.entries[v.uart].callback == Some(BspUart.VofaRxCallback)
    && forall i :: 0 <= i < |reg.entries| && reg.entries[i].device == v.self ==> i == v.uart
  }

  /**
   VOFA_Register. Fails (NULL) on a NULL handle, a failed allocation of the
   instance, or a failed UART registration, and in each case the UART table is
   as before; otherwise the instance is mounted on a new UART entry that calls
   VOFA_RxCallback, and all eight slots are zero. `self` is the address the
   allocation returns, so no UART entry has it yet.
   */
  method Register(reg: BspUart.Registry, huart: Option<UartHandle>, self: DeviceRef,
                  allocOk: bool, uartAllocOk: bool)
    returns (reg': BspUart.Registry, v: Option<VofaInstance>)
    requires BspUart.Valid(reg)
    requires Fresh(reg, self)
    ensures BspUart.Valid(reg')
    ensures v.Some? <==>
      && huart.Some? && allocOk
      && |reg.entries| < reg.cap && !BspUart.Registered(reg, huart.value)
      && uartAllocOk
    ensures v.None? ==> reg' == reg
    ensures v.Some? ==>
      && v.value.self == self
      && v.value.uart == |reg.entries|
      && Mounted(reg', v.value)
      && reg' == reg.(entries := reg.entries
           + [BspUart.UartInstance(self, huart.value, Some(BspUart.VofaRxCallback), Zeros(reg.bufLimit))])
      && ValidSlots(v.value.rxVar)
      && v.value.rxVar == ZeroSlots()
  {
    if huart.None? {
      return reg, None;
    }
    if !allocOk {
      return reg, None;
    }
    var config := BspUart.UartConfig(huart.value, Some(BspUart.VofaRxCallback));
    var index;
    reg', index := BspUart.Register(reg, Some(self), Some(config), uartAllocOk);
    if index.None? {
      return reg', None;
    }
    v := Some(VofaInstance(self, index.value, ZeroSlots()));
  }

  /** VOFA_RxCallback: the UART layer's receive callback, parsing the entry's buffer into `v`'s slots. */
  method RxCallback(v: VofaInstance, buf: seq<uint8>, size: uint16) returns (v': VofaInstance)
    requires ValidSlots(v.rxVar)
    requires size as nat == RxFrameSize ==> |buf| >= RxFrameSize
    ensures v'.self == v.self && v'.uart == v.uart
    ensures ValidSlots(v'.rxVar)
    ensures size as nat != RxFrameSize ==> v' == v
    ensures size as nat == RxFrameSize ==> v'.rxVar == Apply(v.rxVar, DecodeFrame(buf[..RxFrameSize]))
  {
    var rx := AnalyzeRxData(v.rxVar, buf, size);
    v' := v.(rxVar := rx);
  }

  /**
   A receive event on a UART that a mounted VOFA instance shares the table with.
   When the event is on `v`'s own UART, the parser runs over that entry's buffer
   as the DMA left it and the buffer is zeroed afterwards; an event on any other
   UART leaves `v` alone. The UART layer's part is BspUart.RxEvent.
   */
  method UartRxEvent(reg: BspUart.Registry, v: VofaInstance, huart: UartHandle, size: uint16)
    returns (reg': BspUart.Registry, v': VofaInstance)
    requires BspUart.Valid(reg)
    requires Mounted(reg, v) && ValidSlots(v.rxVar)
    requires size as nat == RxFrameSize ==> reg.bufLimit >= RxFrameSize
    ensures BspUart.Valid(reg') && Mounted(reg', v') && ValidSlots(v'.rxVar)
    ensures v'.self == v.self && v'.uart == v.uart
    ensures huart != reg.entries[v.uart].handle ==> v' == v
    ensures !BspUart.Registered(reg, huart) ==> reg' == reg
    ensures forall i :: 0 <= i < |reg.entries| && reg.entries[i].handle == huart ==>
      reg' == reg.(entries := reg.entries[i := reg.entries[i].(recvBuff := Zeros(reg.bufLimit))])
    ensures huart == reg.entries[v.uart].handle ==>
      && reg'.entries[v.uart].recvBuff == Zeros(reg.bufLimit)
      && (size as nat != RxFrameSize ==> v' == v)
      && (size as nat == RxFrameSize ==>
            v'.rxVar == Apply(v.rxVar, DecodeFrame(reg.entries[v.uart].recvBuff[..RxFrameSize])))
  {
    var call;
    reg', call := BspUart.RxEvent(reg, huart, size);
    v' := v;
    if call.Some? && call.value.callback == BspUart.VofaRxCallback && call.value.device == v.self {
      v' := RxCallback(v, call.value.buffer, size);
    }
  }

  /** What VOFA_Send returned and the HAL transmit calls it made, in order. */
  datatype SendOutcome = SendOutcome(code: uint8, calls: seq<BspUart.TxCall>)

  const SendOk: uint8 := 0
  const SendBadArgs: uint8 := 1
  const SendHeadFailed: uint8 := 2
  const SendDataFailed: uint8 := 3

  /** The bytes a sequence of transmit calls puts on the wire, in order. */
  function Stream(calls: seq<BspUart.TxCall>): seq<uint8> {
    if |calls| == 0 then [] else calls[0].data + Stream(calls[1..])
  }

  /**
   The payload length VOFA_Send passes on: `send_size * 4` converted to the
   `uint16_t` parameter of UART_Send, so it wraps modulo 65536.
   */
  function PayloadLength(sendSize: uint16): (n: uint16)
    ensures (sendSize as nat) * 4 < 0x1_0000 ==> n as nat == (sendSize as nat) * 4
    ensures (sendSize as nat) * 4 >= 0x1_0000 ==> (n as nat) < (sendSize as nat) * 4
  {
    (((sendSize as nat) * 4) % 0x1_0000) as uint16
  }

  /**
   VOFA_Send over the UART entry `handle` of the instance. It returns 1 and sends
   nothing on a NULL instance, a NULL buffer or size 0; otherwise it sends the
   4-byte header in blocking mode and returns 2 if that fails, without
   attempting the payload; otherwise it sends the payload (the first
   `PayloadLength(sendSize)` bytes of `buf`) in blocking mode and returns 3 if
   that fails and 0 if it succeeds. `headReply` and `dataReply` are what the two
   HAL calls return. The buffer holds the `sendSize` floats the caller passes.
   */
  function Send(handle: Option<UartHandle>, buf: Option<seq<uint8>>, sendSize: uint16,
                headReply: HalStatus, dataReply: HalStatus): (r: SendOutcome)
    requires buf.Some? ==> |buf.value| >= (sendSize as nat) * 4
    ensures r.code == SendBadArgs <==> handle.None? || buf.None? || sendSize == 0
    ensures r.code == SendBadArgs ==> r.calls == []
    ensures r.code != SendBadArgs ==>
      && |r.calls| >= 1
      && r.calls[0] == BspUart.TxCall(BspUart.TransmitBlocking(BspUart.BlockingTimeout), handle.value, VofaTxHead)
    ensures r.code == SendHeadFailed <==> r.code != SendBadArgs && headReply != HalOk
    ensures r.code == SendHeadFailed ==> |r.calls| == 1
    ensures r.code == SendDataFailed <==> r.code != SendBadArgs && headReply == HalOk && dataReply != HalOk
    ensures r.code == SendOk <==> r.code != SendBadArgs && headReply == HalOk && dataReply == HalOk
    ensures r.code == SendOk || r.code == SendDataFailed ==>
      && |r.calls| == 2
      && r.calls[1] == BspUart.TxCall(BspUart.TransmitBlocking(BspUart.BlockingTimeout), handle.value,
                                      buf.value[..PayloadLength(sendSize)])
  {
    if handle.None? || buf.None? || sendSize == 0 then SendOutcome(SendBadArgs, [])
    else
      var head := BspUart.Send(handle.value, VofaTxHead, 4, BspUart.TransferBlocking, headReply);
      if head.status != HalOk then SendOutcome(SendHeadFailed, [head.call.value])
      else
        var n := PayloadLength(sendSize);
        var data := BspUart.Send(handle.value, buf.value, n, BspUart.TransferBlocking, dataReply);
        if data.status != HalOk then SendOutcome(SendDataFailed, [head.call.value, data.call.value])
        else SendOutcome(SendOk, [head.call.value, data.call.value])
  }

  /**
   What the host receives from a VOFA_Send that got past the argument check: the
   header alone when the header failed, otherwise the header followed by the
   first `PayloadLength(sendSize)` bytes of the buffer, which are the first
   `4 * sendSize` bytes whenever that fits in 16 bits.
   */
  lemma SendStream(handle: Option<UartHandle>, buf: Option<seq<uint8>>, sendSize: uint16,
                   headReply: HalStatus, dataReply: HalStatus)
    requires buf.Some? ==> |buf.value| >= (sendSize as nat) * 4
    ensures var r := Send(handle, buf, sendSize, headReply, dataReply);
      && (r.code == SendBadArgs ==> Stream(r.calls) == [])
      && (r.code == SendHeadFailed ==> Stream(r.calls) == VofaTxHead)
      && (r.code == SendOk || r.code == SendDataFailed ==>
            && Stream(r.calls) == VofaTxHead + buf.value[..PayloadLength(sendSize)]
            && ((sendSize as nat) * 4 < 0x1_0000 ==>
                  Stream(r.calls) == VofaTxHead + buf.value[..(sendSize as nat) * 4]))
  {
    var r := Send(handle, buf, sendSize, headReply, dataReply);
    if r.code == SendHeadFailed {
      assert Stream(r.calls[1..]) == [];
      assert Stream(r.calls) == VofaTxHead + [];
    } else if r.code == SendOk || r.code == SendDataFailed {
      var payload := buf.value[..PayloadLength(sendSize)];
      assert r.calls[1].data == payload;
      assert Stream(r.calls[1..][1..]) == [];
      assert Stream(r.calls[1..]) == payload + [];
      assert Stream(r.calls) == VofaTxHead + payload;
    }
  }

  /**
   The payload length is zero exactly when `send_size` is a multiple of 16384:
   only then does `send_size * 4` wrap to 0 in the `uint16_t` length.
   */
  lemma PayloadLengthZero(sendSize: uint16)
    ensures PayloadLength(sendSize) == 0 <==> (sendSize as nat) % 0x4000 == 0
  {
  }

  /**
   A send of a non-zero multiple of 16384 floats whose header goes through hands
   the HAL a payload of zero bytes. HAL_UART_Transmit answers a zero length with
   HAL_ERROR, and with that reply the send returns 3.
   */
  lemma SendOfMultipleOfSixteenKFloatsSendsEmptyPayload(handle: UartHandle, buf: seq<uint8>, sendSize: uint16,
                                                        dataReply: HalStatus)
    requires sendSize != 0 && (sendSize as nat) % 0x4000 == 0
    requires |buf| >= (sendSize as nat) * 4
    ensures var r := Send(Some(handle), Some(buf), sendSize, HalOk, dataReply);
      && |r.calls| == 2 && r.calls[1].data == []
      && Stream(r.calls) == VofaTxHead
      && (dataReply == HalError ==> r.code == SendDataFailed)
  {
    PayloadLengthZero(sendSize);
    SendStream(Some(handle), Some(buf), sendSize, HalOk, dataReply);
    assert buf[..0] == [];
    assert VofaTxHead + [] == VofaTxHead;
  }

  /**
   Any other size from 16384 floats on sends a shortened payload: a send of
   16385 floats puts the header and just the first float on the wire, and
   reports success.
   */
  lemma SendOfSixteenKAndOneFloatsSendsOneFloat(handle: UartHandle, buf: seq<uint8>)
    requires |buf| >= 0x4001 * 4
    ensures var r := Send(Some(handle), Some(buf), 0x4001, HalOk, HalOk);
      r.code == SendOk && Stream(r.calls) == VofaTxHead + buf[..4]
  {
    SendStream(Some(handle), Some(buf), 0x4001, HalOk, HalOk);
    assert PayloadLength(0x4001) == 4;
  }
}
